=== FILE: README.md ===
# Alert capture log: a verified model of the flow-keyed capture-file cache

This project models the core of Suricata's alert-pcap output module
(`src/alert-pcap.c`). When a packet belongs to a flow that carries an alert,
the module writes it into a capture file of its own for that flow. First it
derives the file's directory and name from the flow identity. Then it finds
the file in a queue of open files, or creates it. It writes the flow's
buffered pre-alert packets (the time-machine backlog) oldest first, then the
packet itself, and stamps the file with the current time. Last, it closes
files at the front of the queue that have been idle for at least the
configured timeout. At shutdown every open file is closed.

Layout:

- `wrappers.dfy`: `Option` and `Result`.
- `naming.dfy` (module `Naming`): the directory and file name of a flow, the
  protocol label, decimal rendering and its inverse.
- `pcap_files.dfy` (module `PcapFiles`): the queue as values. It holds the
  entry type and the lookup, move-to-tail, write, eviction and close
  functions. It also holds the invariants (unique names, ordered by last
  write) and the lemmas that the whole event keeps them. The scan is a loop
  method.
- `alert_pcap_log.dfy` (module `AlertPcapLog`): the imperative part. `Flow`
  and `TmPacket` are classes whose backlog and `flow` pointer are updated in
  place. `Log` is the module's shared data: the queue, the counter, the
  current file and the closed files. Its methods follow
  `AlertPcapLogProcess` step by step and `AlertPcapLogDeInitCtx`, and each is
  proved against the functions of `PcapFiles`.
- `config.dfy` (module `AlertPcapConfig`): root directory and timeout
  handling of `AlertPcapLogInitCtx`.

The capture writer is abstract. Each entry keeps the sequence of records
written to it and a writer state (`Open`/`Closed`). `Log.closedFiles` holds
the files whose writers were flushed and closed, in closing order. The
`current_file` pointer is modelled by the name of the entry it points to.
Names are unique, so the name identifies the entry. Time is whole seconds
(`now`), because eviction compares only `tv_sec`.

## Model

| member | source | states |
|---|---|---|
| `Naming.Decimal` | src/alert-pcap.c:253-254 | a port is printed as a non-empty digit string with no leading zero |
| `Naming.DecimalRoundTrip` | src/alert-pcap.c:253-254 | reading the printed digits back gives the number |
| `Naming.PadDecimal` | src/alert-pcap.c:243 | "%03u" output is all digits, of length max(width, number of digits) |
| `Naming.PadDecimalRoundTrip` | src/alert-pcap.c:243 | zero padding does not change the value the digits denote |
| `Naming.ProtoLabel` | src/alert-pcap.c:240-244 | a registered protocol gets its table name; a protocol with no registered name is labelled by exactly three digits that read back as its number |
| `Naming.DateBucket` | src/alert-pcap.c:246-247 | the day part is the first min(10, length) characters of the start time |
| `Naming.Directory` | src/alert-pcap.c:246-247 | the directory starts with root/day/, ends with the address pair src-dst, and has nothing else in between (its length is the sum of the parts plus the three separators) |
| `Naming.BaseName` | src/alert-pcap.c:249-255 | the name starts with the source address and ends in "." label ".pcap", where the label is "ICMP" for ICMP and the protocol label otherwise |
| `Naming.FileName` | src/alert-pcap.c:246-255 | the file lies in its flow's directory (directory/ is a prefix) and its name ends in ".pcap" |
| `Naming.IcmpNameIgnoresPorts` | src/alert-pcap.c:249-251 | an ICMP flow's name does not depend on its ports |
| `Naming.PortsDetermineFileName` | src/alert-pcap.c:252-254 | for other protocols, two flows that differ only in ports get different names |
| `Naming.AddressesDetermineFileName` | src/alert-pcap.c:232-251 | for two flows with the same start time whose addresses are PrintInet text (digits, hex letters, '.' and ':'), equal file names imply equal source and destination addresses |
| `Naming.DashInAddressCollides` | src/alert-pcap.c:246-251 | the "%s-%s" layout alone does not separate free text: address strings "a-b"/"c" and "a"/"b-c" would share a file, so the injectivity above depends on rendered addresses having no '-' |
| `PcapFiles.FindIndex` | src/alert-pcap.c:263-270 | the first entry with the name, or proof that no entry has it |
| `PcapFiles.FindFile` | src/alert-pcap.c:263-270 | the front-to-back strcmp scan returns exactly that first match or none |
| `PcapFiles.MoveToTail` | src/alert-pcap.c:265-266 | remove and re-append only reorders: same multiset and length, the moved entry at the tail, and the other files in their old order in front of it |
| `PcapFiles.MoveToTailUnique` | src/alert-pcap.c:265-266 | moving an entry to the tail keeps names unique |
| `PcapFiles.FastPathAgrees` | src/alert-pcap.c:259-262 | when the tail already has the name and names are unique, the lookup leaves the queue unchanged, so skipping the scan is sound |
| `PcapFiles.Resolved` | src/alert-pcap.c:259-286 | after lookup the named entry is at the tail; a hit keeps the multiset, puts the found entry at the tail and keeps the other files in their old order; a miss appends one empty entry after the old queue |
| `PcapFiles.ResolvedUnique` | src/alert-pcap.c:259-286 | lookup, including creation on a miss, keeps names unique |
| `PcapFiles.ResolvedOpen` | src/alert-pcap.c:259-286 | lookup keeps every queued writer open |
| `PcapFiles.NewFile` | src/alert-pcap.c:142-192 | creation succeeds exactly when allocation, the directory (present, created, or already existing), pcap_open_dead and pcap_dump_open all succeed; a new file is open and empty |
| `PcapFiles.Appended` | src/alert-pcap.c:290-296 | pcap_dump into the tail file adds the records after its earlier ones; the tail keeps its name, writer state and update time, and the other files stay as they were |
| `PcapFiles.Touched` | src/alert-pcap.c:314 | the tail file's update time becomes now; it keeps its name, records and writer state, and the rest of the queue is unchanged |
| `PcapFiles.AppendedTwice` | src/alert-pcap.c:290-311 | writing the backlog and then the packet equals writing the two in one sequence |
| `PcapFiles.AfterWrite` | src/alert-pcap.c:259-314 | after lookup and write the queue grows by one exactly on a miss, and the tail is the looked-up file, stamped now |
| `PcapFiles.AfterWriteOrdered` | src/alert-pcap.c:259-314 | with a clock that does not run backwards, lookup plus write keeps the queue ordered by update time |
| `PcapFiles.ExpiredPrefix` | src/alert-pcap.c:317-330 | eviction removes a prefix; every removed file is expired and the first kept file is not |
| `PcapFiles.Evicted` | src/alert-pcap.c:317-330 | what eviction leaves is a suffix of the queue; every file dropped in front of it is expired and its first file is not |
| `PcapFiles.ClosedByEviction` | src/alert-pcap.c:317-330 | the closed files are exactly the files in front of what eviction leaves, in queue order, each with its writer closed |
| `PcapFiles.CloseAll` | src/alert-pcap.c:198-208 | each file is closed once, in order, with its records kept |
| `PcapFiles.CloseAllSnoc` | src/alert-pcap.c:459-465 | closing one more file adds exactly that file, closed, at the end |
| `PcapFiles.SurvivorsAreFresh` | src/alert-pcap.c:317-322 | on an ordered queue, every file eviction keeps is fresh, so stopping at the first fresh file is sound |
| `PcapFiles.JustWrittenSurvives` | src/alert-pcap.c:314-322 | with timeout >= 1 the file just written is not evicted |
| `PcapFiles.ZeroTimeoutEvictsAll` | src/alert-pcap.c:320 | with timeout 0 every file is evicted, including the one just written |
| `PcapFiles.EvictionKeeps` | src/alert-pcap.c:317-330 | after removing a prefix, the queue is still ordered, unique and open |
| `PcapFiles.EvictedOrdered` | src/alert-pcap.c:317-330 | eviction keeps an ordered queue ordered and no later than now |
| `PcapFiles.EventKeepsOrder` | src/alert-pcap.c:257-330 | a whole event keeps the queue ordered and no later than now |
| `PcapFiles.NextEventReuses` | src/alert-pcap.c:259-330 | with timeout >= 1, the file just written stays at the tail, and the next lookup of the same name changes nothing (no new file) |
| `PcapFiles.NewFileHoldsEventRecords` | src/alert-pcap.c:288-311 | a newly created file holds exactly the event's records (backlog, then packet) in order |
| `PcapFiles.ReusedFileHoldsEventRecords` | src/alert-pcap.c:263-311 | a file found by the lookup keeps its earlier records and gets the event's records after them, in order |
| `AlertPcapLog.PacketRecord` | src/alert-pcap.c:302-306 | the packet's record has the packet's timestamp and caplen == len == packet length |
| `AlertPcapLog.Condition` | src/alert-pcap.c:123-129 | an admitted packet has the flow that AlertPcapLogProcess dereferences; `Log.Process` requires it |
| `AlertPcapLog.Flow.Identity` | src/alert-pcap.c:232-238 | IPv4 and IPv6 flows are named by their rendered addresses; any other flow gets "" for both; ports, protocol and start time are the flow's own |
| `AlertPcapLog.UnknownFamiliesShareFile` | src/alert-pcap.c:232-255 | two flows that are neither IPv4 nor IPv6 and agree on ports, protocol and start time share one file, whatever their addresses |
| `AlertPcapLog.Records` | src/alert-pcap.c:290-296 | the i-th record written is the record of the i-th buffered packet, one per packet |
| `AlertPcapLog.RecordsSnoc` | src/alert-pcap.c:290-296 | draining one more packet adds exactly its record at the end |
| `AlertPcapLog.Log.constructor` | src/alert-pcap.c:431-433 | the queue starts empty, with count 0 and no current file |
| `AlertPcapLog.Log.Resolve` | src/alert-pcap.c:257-286 | fast path: unchanged queue. Scan hit: moved to the tail, same multiset and count. Miss: new entry appended and count + 1. Failed creation: queue, current file and count unchanged. Otherwise the invariant holds and current is the tail |
| `AlertPcapLog.Log.Promote` | src/alert-pcap.c:263-268 | a scan hit moves the found file to the tail without adding or losing files (same multiset and length) and makes it current_file |
| `AlertPcapLog.Log.Insert` | src/alert-pcap.c:280-285 | a created file goes after all the old files, becomes current_file, and the counter goes up by one |
| `AlertPcapLog.Log.DumpFirst` | src/alert-pcap.c:291-295 | one drain round writes the oldest buffered packet's record to the tail file, removes it from the backlog and clears its flow pointer |
| `AlertPcapLog.Log.DrainBacklog` | src/alert-pcap.c:288-297 | the tail file gets exactly the backlog records, oldest first; afterwards the backlog is empty, the counter is 0 and every drained packet's flow is null |
| `AlertPcapLog.Log.WritePacket` | src/alert-pcap.c:301-314 | the packet's record is appended to the tail file, and its update time becomes now |
| `AlertPcapLog.Log.WriteEvent` | src/alert-pcap.c:288-314 | backlog then packet in one write sequence, then the time stamp |
| `AlertPcapLog.Log.CloseFront` | src/alert-pcap.c:324-329 | the front file is removed and closed; the current file is cleared and the count decremented |
| `AlertPcapLog.Log.CloseExpired` | src/alert-pcap.c:316-330 | the loop removes and closes exactly the expired prefix, front first; the count drops by its length; the current file is cleared iff something was removed |
| `AlertPcapLog.Log.EvictExpired` | src/alert-pcap.c:316-330 | the queue becomes `Evicted` of the old queue and `ClosedByEviction` is what gets closed |
| `AlertPcapLog.Log.WriteAndEvict` | src/alert-pcap.c:288-330 | the write followed by eviction, stated as one step |
| `AlertPcapLog.Log.Process` | src/alert-pcap.c:223-334 | for a packet admitted by `Condition`: failure happens iff the name is new and creation fails, and then nothing changes. On success the queue is the eviction of (lookup + backlog + packet + stamp), the evicted files are closed, and the backlog is drained and detached |
| `AlertPcapLog.Log.DeInit` | src/alert-pcap.c:452-469 | every file is closed once, front first, until the count is 0 and the queue is empty |
| `AlertPcapConfig.ConfiguredTimeout` | src/alert-pcap.c:406-428 | default 300 when absent; an unparsable value or a value below 1 is an error; a parsed value >= 1 becomes the timeout |
| `AlertPcapConfig.RootDirectoryAsWritten` | src/alert-pcap.c:395-404 | as written, an absolute directory gives the empty root; a relative one lies under logDir/ |
| `AlertPcapConfig.RootDirectory` | src/alert-pcap.c:389-404 | an absolute directory is the root itself; a relative one becomes logDir/dir, so the default is logDir/alert |
| `AlertPcapConfig.AbsoluteDirectoryLost` | src/alert-pcap.c:395-397 | for every absolute directory, the root as written is empty and the intended root is that directory |
| `AlertPcapConfig.RelativeDirectoryAgrees` | src/alert-pcap.c:398-404 | for relative directories the code as written and the intended code agree |
| `AlertPcapConfig.InitCtx` | src/alert-pcap.c:376-446 | no configuration node leaves root "" and timeout 0; with a node, success gives the intended root and exactly the accepted timeout (>= 1), and failure happens iff the timeout is rejected |
| `AlertPcapConfig.ConfiguredTimeoutKeepsWrittenFile` | src/alert-pcap.c:406-428 | with any accepted configured timeout, an event never evicts the file it has just written |
| `AlertPcapConfig.MissingConfigClosesEverything` | src/alert-pcap.c:384-388 | without a configuration node, eviction empties the queue on every event |

## Findings

| source | as written | input that shows it | evidently intended | confidence | as-written member | corrected member |
|---|---|---|---|---|---|---|
| src/alert-pcap.c:395-397 | an absolute directory is copied with size `strlen(apl->directory)`, which is 0 for the zeroed buffer, so nothing is copied and the root is empty | `directory: /var/log/pcap` gives root "" and files under "/<day>/..." | the absolute directory becomes the root | high (not executed) | `AlertPcapConfig.AbsoluteDirectoryLost` (about `AlertPcapConfig.RootDirectoryAsWritten`) | `AlertPcapConfig.RootDirectory` |

`InitCtx` and the rest of the model use `RootDirectory`.

## Left out

- libpcap and stdio (`pcap_open_dead`, `pcap_dump_open`, `pcap_dump`, `pcap_dump_flush`, `pcap_dump_close`, `pcap_close`, `fflush`): replaced by the abstract writer (a record log per file plus an open/closed state). The capture-file byte format, the link type and the flush are not modelled.
- File system (`stat`, `MakePath`), allocation, and libpcap open results: these are the inputs `CreateEnv` of `NewFile`. The source passes the file name rather than the directory to `MakePath` (line 161). The model treats that call only as succeeding, finding the path already there, or failing.
- Locking (flow lock, cache mutex, backlog mutex): each call is one sequential step.
- `PrintInet`, `CreateIsoTimeString`, the `known_proto` table and `SCProtoNameValid`: the rendered strings are fields of the flow, and the table is a partial map `knownProto`.
- Fixed-size buffers: `snprintf`/`strlcpy` truncation into `PATH_MAX`, 46- and 16-byte buffers is not modelled; strings are unbounded.
- Integer widths: `pcap_file_count`, `tm_pkt_cnt` and `timeout` are unbounded naturals (no 32-bit wrap-around). Ports and the protocol number keep their 16- and 8-bit ranges.
- Microseconds of `struct timeval`: the update time is whole seconds; the packet record keeps both parts of the packet timestamp.
- Eviction loop: the source frees an entry inside `TAILQ_FOREACH` and then follows that entry's `next` link (use after free). The model implements the intended "remove the front while it is expired" loop. Memory reuse cannot be expressed with value entries.
- Leaks in `AlertPcapFileNew` on its failure paths (lines 150-188), and `SCFree` in general: memory is not modelled.
- A new entry's `updated` field: the source leaves it uninitialised. Line 314 always sets it before anything reads it. The model starts it at 0.
- `AlertPcapLog.Log.DeInit`: the source leaves `current_file` pointing at the last entry it freed, and then frees the whole structure. The model keeps that name in `currentFile` and does not re-establish `Valid()` afterwards.
- `AlertPcapLog.Log.Process`: the ordering by update time is not part of its contract. It follows from that contract through `PcapFiles.EventKeepsOrder`, given a clock that does not run backwards.
- Without a configuration node the timeout stays 0 (lines 384, 388), and every file is closed right after it is written. This is modelled (`InitCtx`, `MissingConfigClosesEverything`), not corrected.
- Module registration, thread init/deinit, configuration-tree lookup (`ConfNodeLookupChildValue`), `ConfigGetLogDirectory` and the decimal parser `ByteExtractStringUint32`: the lookup and parse results are inputs (`ConfNode`, `ParsedUint32`, `logDir`). `exit(EXIT_FAILURE)` becomes a `ConfigError`. Allocation failures at start-up are not modelled.
- File names as keys: the name determines the ports of a non-ICMP flow (`PortsDetermineFileName`) and, for PrintInet-rendered addresses, the address pair (`AddressesDetermineFileName`). It does not tell every two flows apart: the source shares one file between distinct flows in two cases. ICMP names leave out the ports (`IcmpNameIgnoresPorts`). Flows that are neither IPv4 nor IPv6 render both addresses as "" (`UnknownFamiliesShareFile`). Injectivity in the start time is not proved: the ISO time text is an input, and only equal start times are compared.
- Addresses as text: the flow's rendered addresses are free strings, so the model admits address text containing '-' that PrintInet never produces (`DashInAddressCollides` shows what that would break). `AddressesDetermineFileName` therefore requires `AddressText` of each address.
- `PathIsAbsolute`: the helper of util-path.c is not part of this model. The model takes it to be "non-empty and starts with '/'"; `AbsoluteDirectoryLost` and `RootDirectory` rest on that definition, and any other case the real helper treats differently (a single "/", a Windows drive letter) is not covered.
- Reopening a file that was evicted earlier and then recreated for the same flow: `pcap_dump_open` truncates on disk. The model instead keeps both the closed copy in `closedFiles` and a new empty entry.

=== FILE: alert_pcap_log.dfy ===
/**
 * The alert capture log: a per-flow cache of open capture files, fed one
 * alert-bearing packet at a time (AlertPcapLogProcess), torn down at
 * shutdown (AlertPcapLogDeInitCtx).
 *
 * Every call is modelled as one sequential step: the flow lock, the cache
 * lock and the backlog lock of the source serialise the calls and are not
 * modelled. The clock (TimeGet) is the parameter `now`, in whole seconds.
 */
module AlertPcapLog {
  import opened Wrappers
  import opened Naming
  import opened PcapFiles

  datatype AddrFamily = IPv4 | IPv6 | OtherFamily

  /** TmEcode */
  datatype Ecode = EcodeOk | EcodeFailed

  /** A flow, as far as the log reads and changes it. Its identity does not
      change while it is logged; its time-machine backlog does. */
  class Flow {
    const family: AddrFamily
    const srcText: string     // PrintInet rendering of the source address
    const dstText: string     // PrintInet rendering of the destination address
    const sp: Port
    const dp: Port
    const proto: Proto
    const startTime: string   // CreateIsoTimeString rendering of the start time

    /** tm_pkts: packets buffered before the alert, oldest first. */
    var tmPkts: seq<TmPacket>
    /** tm_pkt_cnt */
    var tmPktCnt: nat

    /** The identity used for naming: the rendered addresses of an IPv4 or
        IPv6 flow, the empty string for both addresses of any other flow,
        and the flow's own ports, protocol and start time. */
    function Identity(): (r: FlowIdentity)
      ensures family != OtherFamily ==> r.src == srcText && r.dst == dstText
      ensures family == OtherFamily ==> r.src == "" && r.dst == ""
      ensures r.sp == sp && r.dp == dp && r.proto == proto && r.startTime == startTime
    {
      var known := family != OtherFamily;
      FlowIdentity(if known then srcText else "", if known then dstText else "", sp, dp, proto, startTime)
    }

    /** The backlog counter agrees with the backlog. */
    predicate BacklogValid()
      reads this
    {
      tmPktCnt == |tmPkts|
    }
  }

  /** TimeMachinePacket: a buffered packet, its record, and the flow it is
      still attached to. */
  class TmPacket {
    const record: Record
    var flow: Flow?
  }

  /** Every packet of the run has been detached from its flow (flow == NULL). */
  ghost predicate Detached(ps: seq<TmPacket>)
    reads set q | q in ps
  {
    forall q :: q in ps ==> q.flow == null
  }

  /** The records of a run of buffered packets, in order. */
  function Records(ps: seq<TmPacket>): (rs: seq<Record>)
    ensures |rs| == |ps|
    ensures forall i :: 0 <= i < |ps| ==> rs[i] == ps[i].record
  {
    if ps == [] then [] else Records(ps[..|ps| - 1]) + [ps[|ps| - 1].record]
  }

  lemma RecordsSnoc(ps: seq<TmPacket>, i: nat)
    requires i < |ps|
    ensures Records(ps[..i + 1]) == Records(ps[..i]) + [ps[i].record]
  {
    assert ps[..i + 1][..i] == ps[..i];
  }

  /** Flows that are neither IPv4 nor IPv6 lose their addresses in the
      name: two such flows with the same ports, protocol and start time
      share one file, whatever their addresses. */
  lemma UnknownFamiliesShareFile(root: string, knownProto: map<Proto, string>, f1: Flow, f2: Flow)
    requires f1.family == OtherFamily && f2.family == OtherFamily
    requires f1.sp == f2.sp && f1.dp == f2.dp && f1.proto == f2.proto && f1.startTime == f2.startTime
    ensures FileName(root, knownProto, f1.Identity()) == FileName(root, knownProto, f2.Identity())
  {
  }

  /** The packet handed to the output module. */
  datatype Packet = Packet(flow: Flow?, flowContainsAlerts: bool, tsSec: int, tsUsec: int, data: seq<bv8>)

  /** The record written for the triggering packet: its own timestamp, and
      the packet length as both captured and original length. */
  function PacketRecord(p: Packet): (r: Record)
    ensures r.tsSec == p.tsSec && r.tsUsec == p.tsUsec
    ensures r.caplen == r.len == |p.data| && r.data == p.data
  {
    Record(p.tsSec, p.tsUsec, |p.data|, |p.data|, p.data)
  }

  /** AlertPcapLogCondition: the module runs only for packets of a flow that
      carries an alert; such a packet always has the flow that
      AlertPcapLogProcess dereferences. */
  predicate Condition(p: Packet)
    ensures Condition(p) ==> p.flow != null
  {
    p.flow != null && p.flowContainsAlerts
  }

  /** How a lookup was satisfied. */
  datatype Resolution =
    | Reused                          // current_file already had the name
    | Promoted                        // found by the scan, moved to the tail
    | Created                         // not found, created and appended
    | CreateFailed(error: CreateError)

  /** AlertPcapLogData: the shared state of the module. */
  class Log {
    /** Root directory of the capture files. */
    const directory: string
    /** Idle timeout in seconds. */
    const timeout: nat

    /** pcap_files: open files, front = least recently written. */
    var files: seq<PcapFile>
    /** pcap_file_count */
    var fileCount: nat
    /** current_file, given by the name of the file it points to. */
    var currentFile: Option<string>
    /** Files whose writer has been flushed and closed, in closing order. */
    var closedFiles: seq<PcapFile>

    /** The structural invariant: unique names, every queued writer open, the
        counter equal to the queue length, and current_file, when set, the
        tail of the queue. */
    ghost predicate Valid()
      reads this
    {
      UniqueNames(files) && AllOpen(files) && fileCount == |files| &&
      (currentFile.Some? ==> |files| > 0 && Last(files).filename == currentFile.value)
    }

    /** The state AlertPcapLogInitCtx leaves: an empty queue. */
    constructor (directory: string, timeout: nat)
      ensures Valid()
      ensures this.directory == directory && this.timeout == timeout
      ensures files == [] && fileCount == 0 && currentFile == None && closedFiles == []
    {
      this.directory := directory;
      this.timeout := timeout;
      files := [];
      fileCount := 0;
      currentFile := None;
      closedFiles := [];
    }

    /** Find or create the file for `name` and make it the tail and
        current_file. A failed creation leaves everything as it was. */
    method Resolve(name: string, env: CreateEnv) returns (outcome: Resolution)
      requires Valid()
      modifies this
      ensures closedFiles == old(closedFiles)
      ensures outcome == Reused <==> old(currentFile) == Some(name)
      ensures outcome == Reused ==> files == old(files)
      ensures outcome == Promoted ==> multiset(files) == multiset(old(files)) && |files| == |old(files)|
      ensures outcome == Created ==> files == old(files) + [NewEntry(name)]
      ensures outcome == Promoted ==> old(currentFile) != Some(name) && FindIndex(old(files), name).Some?
      ensures outcome == Created ==> FindIndex(old(files), name).None? && NewFile(name, env).Ok?
      ensures outcome.CreateFailed? <==> FindIndex(old(files), name).None? && NewFile(name, env).Err?
      ensures outcome.CreateFailed? ==> NewFile(name, env) == Err(outcome.error)
      ensures outcome.CreateFailed? ==>
        files == old(files) && fileCount == old(fileCount) && currentFile == old(currentFile)
      ensures !outcome.CreateFailed? ==>
        Valid() && files == Resolved(old(files), name) && currentFile == Some(name)
      ensures fileCount == old(fileCount) + (if outcome == Created then 1 else 0)
    {
      if currentFile == Some(name) {
        FastPathAgrees(files, name);
        return Reused;
      }
      var idx := FindFile(files, name);
      if idx.Some? {
        Promote(name, idx.value);
        return Promoted;
      }
      var created := NewFile(name, env);
      if created.Err? {
        return CreateFailed(created.error);
      }
      Insert(name, created.value);
      return Created;
    }

    /** A scan hit: move the file at index `i` to the tail and make it
        current_file. */
    method Promote(name: string, i: nat)
      requires Valid() && FindIndex(files, name) == Some(i)
      modifies this`files, this`currentFile
      ensures Valid() && currentFile == Some(name)
      ensures files == Resolved(old(files), name) && files == MoveToTail(old(files), i)
      ensures multiset(files) == multiset(old(files)) && |files| == |old(files)|
    {
      ResolvedUnique(files, name);
      ResolvedOpen(files, name);
      files := MoveToTail(files, i);
      currentFile := Some(name);
    }

    /** A miss: append the newly created file, make it current_file and
        count it. */
    method Insert(name: string, created: PcapFile)
      requires Valid() && FindIndex(files, name).None? && created == NewEntry(name)
      modifies this`files, this`currentFile, this`fileCount
      ensures Valid() && currentFile == Some(name)
      ensures files == old(files) + [NewEntry(name)] && files == Resolved(old(files), name)
      ensures fileCount == old(fileCount) + 1
    {
      ResolvedUnique(files, name);
      files := files + [created];
      currentFile := Some(name);
      fileCount := fileCount + 1;
    }

    /** Write the flow's buffered packets, oldest first, into the tail file
        and detach each of them from the flow. */
    method DrainBacklog(flow: Flow)
      requires Valid() && |files| > 0 && flow.BacklogValid()
      modifies this`files, flow, set q | q in flow.tmPkts
      ensures Valid()
      ensures files == Appended(old(files), Records(old(flow.tmPkts)))
      ensures flow.tmPkts == [] && flow.tmPktCnt == 0
      ensures forall q :: q in old(flow.tmPkts) ==> q.flow == null
    {
      ghost var backlog := flow.tmPkts;
      ghost var start := files;
      ghost var done := 0;
      AppendedNothing(start);
      while flow.tmPktCnt > 0
        invariant flow.BacklogValid()
        invariant done <= |backlog| && flow.tmPkts == backlog[done..]
        invariant files == Appended(start, Records(backlog[..done]))
        invariant forall q :: q in backlog[..done] ==> q.flow == null
        decreases flow.tmPktCnt
      {
        AppendedTwice(start, Records(backlog[..done]), [backlog[done].record]);
        RecordsSnoc(backlog, done);
        var packet := DumpFirst(flow);
        assert backlog[..done + 1] == backlog[..done] + [packet];
        done := done + 1;
      }
      assert backlog[..done] == backlog;
      AppendedSameFiles(start, Records(backlog));
      SameFilesKeep(start, files);
    }

    /** One round of the drain: dump the oldest buffered packet into the
        tail file, unlink it from the backlog and detach it from the flow. */
    method DumpFirst(flow: Flow) returns (packet: TmPacket)
      requires |files| > 0 && flow.BacklogValid() && flow.tmPktCnt > 0
      modifies this`files, flow, flow.tmPkts[0]
      ensures packet == old(flow.tmPkts[0]) && packet.flow == null
      ensures files == Appended(old(files), [packet.record])
      ensures flow.tmPkts == old(flow.tmPkts[1..]) && flow.BacklogValid()
    {
      packet := flow.tmPkts[0];
      files := Appended(files, [packet.record]);
      flow.tmPkts := flow.tmPkts[1..];
      flow.tmPktCnt := flow.tmPktCnt - 1;
      packet.flow := null;
    }

    /** Write the triggering packet into the tail file and stamp the file
        with the current time. */
    method WritePacket(p: Packet, now: int)
      requires Valid() && |files| > 0
      modifies this`files
      ensures Valid()
      ensures files == Touched(Appended(old(files), [PacketRecord(p)]), now)
    {
      var appended := Appended(files, [PacketRecord(p)]);
      AppendedSameFiles(files, [PacketRecord(p)]);
      TouchedSameFiles(appended, now);
      SameFilesKeep(files, appended);
      SameFilesKeep(appended, Touched(appended, now));
      files := Touched(appended, now);
    }

    /** Take the front file off the queue, flush and close its writer, clear
        current_file and decrement the counter. */
    method CloseFront()
      requires Valid() && |files| > 0
      modifies this
      ensures Valid()
      ensures files == old(files)[1..] && fileCount == old(fileCount) - 1
      ensures closedFiles == old(closedFiles) + [old(files)[0].(state := Closed)]
      ensures currentFile == None
    {
      var output := files[0];
      EvictionKeeps(files, 1);
      files := files[1..];
      closedFiles := closedFiles + [output.(state := Closed)];
      currentFile := None;
      fileCount := fileCount - 1;
    }

    /** Idle-file eviction: exactly what `Evicted` keeps stays queued, and
        exactly what `ClosedByEviction` lists is closed, in queue order. */
    method EvictExpired(now: int)
      requires Valid()
      modifies this
      ensures Valid()
      ensures files == Evicted(old(files), now, timeout)
      ensures closedFiles == old(closedFiles) + ClosedByEviction(old(files), now, timeout)
      ensures fileCount == old(fileCount) - ExpiredPrefix(old(files), now, timeout)
      ensures currentFile == if ExpiredPrefix(old(files), now, timeout) == 0 then old(currentFile) else None
    {
      CloseExpired(now);
    }

    /** The eviction loop: close and drop files from the front while they
        have been idle for at least the timeout; the first fresh file ends
        the scan. Every removal clears current_file. */
    method CloseExpired(now: int)
      requires Valid()
      modifies this
      ensures Valid()
      ensures var k := ExpiredPrefix(old(files), now, timeout);
        files == old(files)[k..] && closedFiles == old(closedFiles) + CloseAll(old(files)[..k]) &&
        fileCount == old(fileCount) - k && currentFile == if k == 0 then old(currentFile) else None
    {
      ghost var start := files;
      ghost var k := ExpiredPrefix(start, now, timeout);
      ghost var removed := 0;
      while |files| > 0 && now - files[0].updated >= timeout
        invariant Valid()
        invariant removed <= k && files == start[removed..] && fileCount == old(fileCount) - removed
        invariant closedFiles == old(closedFiles) + CloseAll(start[..removed])
        invariant currentFile == if removed == 0 then old(currentFile) else None
        decreases |files|
      {
        assert files[0] == start[removed] && Expired(start[removed], now, timeout);
        CloseAllSnoc(start[..removed], files[0]);
        assert start[..removed + 1] == start[..removed] + [files[0]];
        CloseFront();
        removed := removed + 1;
      }
      assert removed == k;
    }

    /** Everything AlertPcapLogProcess does to the resolved tail file: the
        backlog drain, then the packet itself, then the time stamp. */
    method WriteEvent(flow: Flow, p: Packet, now: int)
      requires Valid() && |files| > 0 && flow.BacklogValid()
      modifies this`files, flow, set q | q in flow.tmPkts
      ensures Valid()
      ensures files == Touched(Appended(old(files), Records(old(flow.tmPkts)) + [PacketRecord(p)]), now)
      ensures flow.tmPkts == [] && flow.tmPktCnt == 0
      ensures Detached(old(flow.tmPkts))
    {
      ghost var start := files;
      DrainBacklog(flow);
      WritePacket(p, now);
      AppendedTwice(start, Records(old(flow.tmPkts)), [PacketRecord(p)]);
    }

    /** The part of AlertPcapLogProcess after the lookup: write the event
        into the tail file, then evict idle files from the front. */
    method WriteAndEvict(flow: Flow, p: Packet, now: int)
      requires Valid() && |files| > 0 && flow.BacklogValid()
      modifies this, flow, set q | q in flow.tmPkts
      ensures Valid()
      ensures var written := Touched(Appended(old(files), Records(old(flow.tmPkts)) + [PacketRecord(p)]), now);
        files == Evicted(written, now, timeout) &&
        closedFiles == old(closedFiles) + ClosedByEviction(written, now, timeout) &&
        currentFile == (if ExpiredPrefix(written, now, timeout) == 0 then old(currentFile) else None)
      ensures flow.tmPkts == [] && flow.tmPktCnt == 0 && Detached(old(flow.tmPkts))
    {
      WriteEvent(flow, p, now);
      EvictExpired(now);
    }

    /** AlertPcapLogProcess: derive the flow's file name, find or create its
        file, drain the flow's backlog into it, write the packet, stamp the
        file with `now`, then evict idle files from the front. */
    method Process(p: Packet, knownProto: map<Proto, string>, env: CreateEnv, now: int) returns (code: Ecode)
      requires Valid() && Condition(p) && p.flow.BacklogValid()
      modifies this, p.flow, set q | q in p.flow.tmPkts
      ensures Valid()
      ensures var name := FileName(directory, knownProto, p.flow.Identity());
        code == EcodeFailed <==> FindIndex(old(files), name).None? && NewFile(name, env).Err?
      ensures code == EcodeFailed ==>
        files == old(files) && fileCount == old(fileCount) && currentFile == old(currentFile) &&
        closedFiles == old(closedFiles) && p.flow.tmPkts == old(p.flow.tmPkts) &&
        p.flow.tmPktCnt == old(p.flow.tmPktCnt) &&
        (forall q :: q in old(p.flow.tmPkts) ==> q.flow == old(q.flow))
      ensures code == EcodeOk ==>
        var name := FileName(directory, knownProto, p.flow.Identity());
        var written := AfterWrite(old(files), name, Records(old(p.flow.tmPkts)) + [PacketRecord(p)], now);
        files == Evicted(written, now, timeout) &&
        closedFiles == old(closedFiles) + ClosedByEviction(written, now, timeout) &&
        currentFile == (if ExpiredPrefix(written, now, timeout) == 0 then Some(name) else None) &&
        p.flow.tmPkts == [] && p.flow.tmPktCnt == 0 && Detached(old(p.flow.tmPkts))
    {
      var flow := p.flow;
      var name := FileName(directory, knownProto, flow.Identity());
      ghost var backlog := flow.tmPkts;
      ghost var start := files;
      var outcome := Resolve(name, env);
      if outcome.CreateFailed? {
        return EcodeFailed;
      }
      WriteAndEvict(flow, p, now);
      return EcodeOk;
    }

    /** AlertPcapLogDeInitCtx: close and drop every file, front first, until
        the counter reaches zero. current_file is left naming the last file
        removed, as the source leaves it. */
    method DeInit()
      requires Valid()
      modifies this
      ensures files == [] && fileCount == 0
      ensures closedFiles == old(closedFiles) + CloseAll(old(files))
      ensures currentFile == if old(files) == [] then old(currentFile) else Some(Last(old(files)).filename)
    {
      ghost var start := files;
      ghost var removed := 0;
      while fileCount > 0
        invariant removed <= |start| && files == start[removed..] && fileCount == |files|
        invariant closedFiles == old(closedFiles) + CloseAll(start[..removed])
        invariant currentFile == if removed == 0 then old(currentFile) else Some(start[removed - 1].filename)
        decreases fileCount
      {
        currentFile := Some(files[0].filename);
        var output := files[0];
        CloseAllSnoc(start[..removed], output);
        assert start[..removed + 1] == start[..removed] + [output];
        files := files[1..];
        closedFiles := closedFiles + [output.(state := Closed)];
        fileCount := fileCount - 1;
        removed := removed + 1;
      }
      assert start[..removed] == start;
    }
  }
}

=== FILE: config.dfy ===
/**
 * Start-up configuration of the alert capture log (AlertPcapLogInitCtx):
 * the root directory and the idle timeout. Reading the configuration tree
 * and the decimal parser are not modelled: their results are inputs.
 */
module AlertPcapConfig {
  import opened Wrappers
  import opened PcapFiles

  const DEFAULT_DIRECTORY_NAME: string := "alert"
  const DEFAULT_FILE_TIMEOUT: nat := 300

  /** What ByteExtractStringUint32 made of the "timeout" value. */
  datatype ParsedUint32 = Unparsable | Parsed(value: nat)

  /** The two children of the output's configuration node that are read. */
  datatype ConfNode = ConfNode(directory: Option<string>, timeout: Option<ParsedUint32>)

  /** Errors that end start-up (exit(EXIT_FAILURE) in the source). */
  datatype ConfigError = InvalidTimeout | TimeoutBelowMinimum

  datatype Settings = Settings(directory: string, timeout: nat)

  /** The idle timeout of a present configuration node: 300 seconds when
      absent, an error when unparsable or below one second. */
  function ConfiguredTimeout(conf: ConfNode): (r: Result<nat, ConfigError>)
    ensures r.Ok? ==> r.value >= 1
    ensures conf.timeout.None? ==> r == Ok(DEFAULT_FILE_TIMEOUT)
    ensures conf.timeout == Some(Unparsable) ==> r == Err(InvalidTimeout)
    ensures r.Err? <==> conf.timeout.Some? && (conf.timeout.value.Unparsable? || conf.timeout.value.value < 1)
    ensures conf.timeout.Some? && conf.timeout.value.Parsed? && conf.timeout.value.value >= 1 ==>
      r == Ok(conf.timeout.value.value)
  {
    match conf.timeout
    case None => Ok(DEFAULT_FILE_TIMEOUT)
    case Some(Unparsable) => Err(InvalidTimeout)
    case Some(Parsed(v)) => if v < 1 then Err(TimeoutBelowMinimum) else Ok(v)
  }

  predicate PathIsAbsolute(path: string) {
    |path| > 0 && path[0] == '/'
  }

  /** The directory setting, "alert" when absent. */
  function ConfiguredDirectory(conf: ConfNode): string {
    match conf.directory case Some(d) => d case None => DEFAULT_DIRECTORY_NAME
  }

  /** The root directory as the source computes it: an absolute directory is
      copied with a size bound of strlen of the still-empty buffer, i.e.
      zero, so nothing is copied and the root stays empty; a relative one is
      placed under the log directory. */
  function RootDirectoryAsWritten(conf: ConfNode, logDir: string): (r: string)
    ensures PathIsAbsolute(ConfiguredDirectory(conf)) ==> r == ""
    ensures !PathIsAbsolute(ConfiguredDirectory(conf)) ==> logDir + "/" <= r
  {
    var dir := ConfiguredDirectory(conf);
    if PathIsAbsolute(dir) then "" else logDir + "/" + dir
  }

  /** The root directory as intended: an absolute directory is used as it
      is, a relative one is placed under the log directory. */
  function RootDirectory(conf: ConfNode, logDir: string): (r: string)
    ensures var dir := ConfiguredDirectory(conf);
      |dir| <= |r| && r[|r| - |dir|..] == dir && (PathIsAbsolute(dir) ==> r == dir)
    ensures !PathIsAbsolute(ConfiguredDirectory(conf)) ==> r == logDir + "/" + ConfiguredDirectory(conf)
    ensures conf.directory.None? ==> r == logDir + "/alert"
  {
    var dir := ConfiguredDirectory(conf);
    if PathIsAbsolute(dir) then dir else logDir + "/" + dir
  }

  /** The defect: every configured absolute directory is lost as written,
      and kept by the intended definition. */
  lemma AbsoluteDirectoryLost(dir: string, timeout: Option<ParsedUint32>, logDir: string)
    requires PathIsAbsolute(dir)
    ensures RootDirectoryAsWritten(ConfNode(Some(dir), timeout), logDir) == ""
    ensures RootDirectory(ConfNode(Some(dir), timeout), logDir) == dir != ""
  {
  }

  /** The two definitions agree on every relative directory. */
  lemma RelativeDirectoryAgrees(conf: ConfNode, logDir: string)
    requires !PathIsAbsolute(ConfiguredDirectory(conf))
    ensures RootDirectory(conf, logDir) == RootDirectoryAsWritten(conf, logDir)
  {
  }

  /** AlertPcapLogInitCtx: without a configuration node the settings stay
      zeroed (empty root, timeout 0); with one, the root directory and the
      checked timeout. */
  function InitCtx(conf: Option<ConfNode>, logDir: string): (r: Result<Settings, ConfigError>)
    ensures conf.None? ==> r == Ok(Settings("", 0))
    ensures conf.Some? && r.Ok? ==> r.value.timeout >= 1 && r.value.directory == RootDirectory(conf.value, logDir)
    ensures conf.Some? && r.Ok? ==> ConfiguredTimeout(conf.value) == Ok(r.value.timeout)
    ensures conf.Some? ==> (r.Err? <==> ConfiguredTimeout(conf.value).Err?)
  {
    match conf
    case None => Ok(Settings("", 0))
    case Some(c) =>
      match ConfiguredTimeout(c)
      case Err(e) => Err(e)
      case Ok(t) => Ok(Settings(RootDirectory(c, logDir), t))
  }

  /** With any configured timeout, the file an event has just written
      survives that event's eviction. */
  lemma ConfiguredTimeoutKeepsWrittenFile(conf: ConfNode, logDir: string, s: seq<PcapFile>, now: int)
    requires InitCtx(Some(conf), logDir).Ok?
    requires |s| > 0 && Last(s).updated == now
    ensures ExpiredPrefix(s, now, InitCtx(Some(conf), logDir).value.timeout) < |s|
  {
    JustWrittenSurvives(s, now, InitCtx(Some(conf), logDir).value.timeout);
  }

  /** Without a configuration node the timeout is zero, and every event
      closes every file, the one it has just written included. */
  lemma MissingConfigClosesEverything(logDir: string, s: seq<PcapFile>, now: int)
    requires NotAfter(s, now)
    ensures ExpiredPrefix(s, now, InitCtx(None, logDir).value.timeout) == |s|
  {
    ZeroTimeoutEvictsAll(s, now);
  }
}

=== FILE: naming.dfy ===
/**
 * Key derivation of the alert capture log: the directory and the file name
 * that a flow's capture file gets, and the protocol label inside the name.
 * Address rendering (PrintInet) and ISO time rendering (CreateIsoTimeString)
 * are not modelled: their outputs are the string fields of FlowIdentity.
 */
module Naming {

  /** A transport port, printed with "%hu". */
  type Port = x: nat | x < 0x1_0000

  /** An IP protocol number, stored by the flow as one byte. */
  type Proto = x: nat | x < 0x100

  /** IPPROTO_ICMP */
  const ICMP: Proto := 1

  /** Flow identity as the naming code sees it, after the addresses and the
      flow start time have been rendered as text. */
  datatype FlowIdentity = FlowIdentity(
    src: string,       // rendered source address ("" when the flow is neither IPv4 nor IPv6)
    dst: string,       // rendered destination address
    sp: Port,
    dp: Port,
    proto: Proto,
    startTime: string  // ISO-8601 rendering of the flow start time
  )

  // ---------------------------------------------------------------------
  // Decimal rendering ("%u", "%hu") and its inverse

  predicate IsDigit(c: char) {
    '0' <= c <= '9'
  }

  predicate AllDigits(s: string) {
    forall i :: 0 <= i < |s| ==> IsDigit(s[i])
  }

  function DigitChar(d: nat): (c: char)
    requires d < 10
    ensures IsDigit(c)
  {
    ('0' as int + d) as char
  }

  function DigitValue(c: char): nat
    requires IsDigit(c)
  {
    c as int - '0' as int
  }

  /** The shortest decimal rendering of n, as printf's "%u" gives it. */
  function Decimal(n: nat): (r: string)
    ensures |r| >= 1 && AllDigits(r)
    ensures |r| > 1 ==> r[0] != '0'
    decreases n
  {
    if n < 10 then [DigitChar(n)] else Decimal(n / 10) + [DigitChar(n % 10)]
  }

  /** Reads a digit string back as a number; leading zeros are allowed. */
  function ParseDecimal(s: string): nat
    requires AllDigits(s)
  {
    if s == [] then 0 else ParseDecimal(s[..|s| - 1]) * 10 + DigitValue(s[|s| - 1])
  }

  function Zeros(k: nat): (r: string)
    ensures |r| == k && AllDigits(r)
  {
    seq(k, _ => '0')
  }

  /** printf's "%0<width>u": the decimal rendering, padded on the left with
      zeros to at least `width` characters. */
  function PadDecimal(n: nat, width: nat): (r: string)
    ensures AllDigits(r)
    ensures |r| == if |Decimal(n)| < width then width else |Decimal(n)|
  {
    var d := Decimal(n);
    if |d| < width then Zeros(width - |d|) + d else d
  }

  lemma {:induction false} DecimalRoundTrip(n: nat)
    ensures ParseDecimal(Decimal(n)) == n
    decreases n
  {
    if n >= 10 {
      DecimalRoundTrip(n / 10);
      var s := Decimal(n);
      assert s[..|s| - 1] == Decimal(n / 10);
    }
  }

  lemma {:induction false} DecimalOfSmall(n: nat)
    requires n < 1000
    ensures |Decimal(n)| <= 3
  {
    if n >= 10 {
      DecimalOfSmall(n / 10);
      assert |Decimal(n / 10)| <= 2 by {
        if n / 10 >= 10 {
          assert |Decimal(n / 100)| == 1;
        }
      }
    }
  }

  lemma {:induction false} ParseZeros(k: nat)
    ensures ParseDecimal(Zeros(k)) == 0
  {
    if k > 0 {
      ParseZeros(k - 1);
      assert Zeros(k)[..k - 1] == Zeros(k - 1);
    }
  }

  lemma {:induction false} ParseLeadingZeros(k: nat, s: string)
    requires AllDigits(s)
    ensures AllDigits(Zeros(k) + s)
    ensures ParseDecimal(Zeros(k) + s) == ParseDecimal(s)
    decreases |s|
  {
    var z := Zeros(k) + s;
    if s == [] {
      assert z == Zeros(k);
      ParseZeros(k);
    } else {
      ParseLeadingZeros(k, s[..|s| - 1]);
      assert z[..|z| - 1] == Zeros(k) + s[..|s| - 1];
    }
  }

  /** Zero padding never changes the value that the digits denote. */
  lemma PadDecimalRoundTrip(n: nat, width: nat)
    ensures ParseDecimal(PadDecimal(n, width)) == n
  {
    DecimalRoundTrip(n);
    var d := Decimal(n);
    if |d| < width {
      ParseLeadingZeros(width - |d|, d);
    }
  }

  // ---------------------------------------------------------------------
  // Protocol label, date bucket, directory and file name

  /** The protocol label of a file name: the registered name when the
      protocol-name table has one (SCProtoNameValid), otherwise the number
      printed with "%03u". A protocol without a registered name gets a label
      of exactly three digits that reads back as its number. */
  function ProtoLabel(knownProto: map<Proto, string>, proto: Proto): (r: string)
    ensures proto in knownProto ==> r == knownProto[proto]
    ensures proto !in knownProto ==> |r| == 3 && AllDigits(r) && ParseDecimal(r) == proto
  {
    if proto in knownProto then knownProto[proto]
    else
      DecimalOfSmall(proto);
      PadDecimalRoundTrip(proto, 3);
      PadDecimal(proto, 3)
  }

  /** "%.10s" of the start time: its first ten characters (the day), or all
      of it when it is shorter. */
  function DateBucket(startTime: string): (r: string)
    ensures |r| == if |startTime| < 10 then |startTime| else 10
    ensures r <= startTime
  {
    if |startTime| <= 10 then startTime else startTime[..10]
  }

  /** The directory of a flow's file, root "/" day "/" src "-" dst: it lies
      under the root and the day of the flow start, and is named after the
      address pair. */
  function Directory(root: string, id: FlowIdentity): (r: string)
    ensures root + "/" + DateBucket(id.startTime) + "/" <= r
    ensures var pair := id.src + "-" + id.dst; |pair| <= |r| && r[|r| - |pair|..] == pair
    ensures |r| == |root| + |DateBucket(id.startTime)| + |id.src| + |id.dst| + 3
  {
    var day := root + "/" + DateBucket(id.startTime) + "/";
    assert day + (id.src + "-" + id.dst) == root + "/" + DateBucket(id.startTime) + "/" + id.src + "-" + id.dst;
    day + (id.src + "-" + id.dst)
  }

  /** The capture-file path of a flow: a file of the flow's directory whose
      name ends in ".pcap". */
  function FileName(root: string, knownProto: map<Proto, string>, id: FlowIdentity): (r: string)
    ensures Directory(root, id) + "/" <= r
    ensures |r| >= 5 && r[|r| - 5..] == ".pcap"
  {
    Directory(root, id) + "/" + BaseName(knownProto, id)
  }

  /** The part of the file name after the directory. ICMP flows carry no
      ports and the fixed label "ICMP"; every other protocol has
      src:sp-dst:dp-time.LABEL.pcap. Either way the name starts with the
      source address and ends in "." label ".pcap". */
  function BaseName(knownProto: map<Proto, string>, id: FlowIdentity): (r: string)
    ensures id.src <= r
    ensures var ext := "." + (if id.proto == ICMP then "ICMP" else ProtoLabel(knownProto, id.proto)) + ".pcap";
      |ext| <= |r| && r[|r| - |ext|..] == ext
    ensures |r| >= 5 && r[|r| - 5..] == ".pcap"
  {
    var tag := if id.proto == ICMP then "ICMP" else ProtoLabel(knownProto, id.proto);
    var head := if id.proto == ICMP then id.src + "-" + id.dst + "-" + id.startTime
      else id.src + ":" + Decimal(id.sp) + "-" + id.dst + ":" + Decimal(id.dp) + "-" + id.startTime;
    assert head + ("." + tag + ".pcap") == head + ("." + tag) + ".pcap";
    assert id.src <= head;
    head + ("." + tag + ".pcap")
  }

  /** The ports of an ICMP flow play no part in its file name. */
  lemma IcmpNameIgnoresPorts(root: string, knownProto: map<Proto, string>, id: FlowIdentity, sp: Port, dp: Port)
    requires id.proto == ICMP
    ensures FileName(root, knownProto, id.(sp := sp, dp := dp)) == FileName(root, knownProto, id)
  {
  }

  /** The name reads back the addresses only because rendered addresses
      contain no '-': for free text, an ICMP flow from "a-b" to "c" and one
      from "a" to "b-c" would share the directory and the file. */
  lemma DashInAddressCollides(root: string, knownProto: map<Proto, string>)
    ensures var id1 := FlowIdentity("a-b", "c", 0, 0, ICMP, "t");
      var id2 := FlowIdentity("a", "b-c", 0, 0, ICMP, "t");
      id1 != id2 && FileName(root, knownProto, id1) == FileName(root, knownProto, id2)
  {
    var id1 := FlowIdentity("a-b", "c", 0, 0, ICMP, "t");
    var id2 := FlowIdentity("a", "b-c", 0, 0, ICMP, "t");
    assert id1.src + "-" + id1.dst == id2.src + "-" + id2.dst;
    assert Directory(root, id1) == Directory(root, id2);
    assert BaseName(knownProto, id1) == BaseName(knownProto, id2);
  }

  /** The string has no occurrence of the separator c. */
  predicate Lacks(s: string, c: char) {
    forall i :: 0 <= i < |s| ==> s[i] != c
  }

  /** Text as PrintInet renders an IPv4 or IPv6 address: dotted decimal or
      colon-separated hexadecimal. */
  predicate AddressText(s: string) {
    forall i :: 0 <= i < |s| ==> IsDigit(s[i]) || 'a' <= s[i] <= 'f' || 'A' <= s[i] <= 'F' || s[i] == '.' || s[i] == ':'
  }

  lemma AllDigitsNoDash(s: string)
    requires AllDigits(s)
    ensures Lacks(s, '-')
  {
  }

  lemma AddressTextSeparators(s: string)
    requires AddressText(s)
    ensures Lacks(s, '-') && Lacks(s, '/')
  {
  }

  lemma SeparatorAfter(c: char, x: string, r: string, y: string)
    ensures |x| < |y| ==> (x + [c] + r)[|x|] == c && (y + [c] + r)[|x|] == y[|x|]
  {
  }

  /** Cutting a string at the first occurrence of a separator is
      unambiguous. */
  lemma SplitAt(c: char, x: string, r1: string, y: string, r2: string)
    requires Lacks(x, c) && Lacks(y, c)
    requires x + [c] + r1 == y + [c] + r2
    ensures x == y && r1 == r2
  {
    var a := x + [c] + r1;
    if |x| < |y| {
      SeparatorAfter(c, x, r1, y);
      assert false;
    } else if |y| < |x| {
      SeparatorAfter(c, y, r2, x);
      assert false;
    }
    assert x == a[..|x|];
    assert r1 == a[|x| + 1..];
  }

  lemma CancelPrefix(p: string, a: string, b: string)
    requires p + a == p + b
    ensures a == b
  {
    assert a == (p + a)[|p|..];
  }

  /** A port printed in front of a '-' can be read back from the text. */
  lemma PortBeforeDash(p1: Port, r1: string, p2: Port, r2: string)
    requires Decimal(p1) + "-" + r1 == Decimal(p2) + "-" + r2
    ensures p1 == p2 && r1 == r2
  {
    AllDigitsNoDash(Decimal(p1));
    AllDigitsNoDash(Decimal(p2));
    SplitAt('-', Decimal(p1), r1, Decimal(p2), r2);
    DecimalRoundTrip(p1);
    DecimalRoundTrip(p2);
  }

  /** The file name regrouped around the '-' between the addresses and the
      '/' after the directory. */
  lemma FileNameAroundAddresses(root: string, knownProto: map<Proto, string>, id: FlowIdentity)
    ensures FileName(root, knownProto, id) ==
      (root + "/" + DateBucket(id.startTime) + "/") + (id.src + "-" + (id.dst + "/" + BaseName(knownProto, id)))
  {
  }

  /** Two flows that start at the same time and whose addresses are
      rendered by PrintInet get the same file name only when both addresses
      agree: the name determines the address pair. */
  lemma AddressesDetermineFileName(root: string, knownProto: map<Proto, string>, id1: FlowIdentity, id2: FlowIdentity)
    requires AddressText(id1.src) && AddressText(id1.dst) && AddressText(id2.src) && AddressText(id2.dst)
    requires id1.startTime == id2.startTime
    requires FileName(root, knownProto, id1) == FileName(root, knownProto, id2)
    ensures id1.src == id2.src && id1.dst == id2.dst
  {
    var day := root + "/" + DateBucket(id1.startTime) + "/";
    var t1 := id1.dst + "/" + BaseName(knownProto, id1);
    var t2 := id2.dst + "/" + BaseName(knownProto, id2);
    FileNameAroundAddresses(root, knownProto, id1);
    FileNameAroundAddresses(root, knownProto, id2);
    CancelPrefix(day, id1.src + "-" + t1, id2.src + "-" + t2);
    AddressTextSeparators(id1.src);
    AddressTextSeparators(id2.src);
    SplitAt('-', id1.src, t1, id2.src, t2);
    AddressTextSeparators(id1.dst);
    AddressTextSeparators(id2.dst);
    SplitAt('/', id1.dst, BaseName(knownProto, id1), id2.dst, BaseName(knownProto, id2));
  }

  /** The non-ICMP base name regrouped around the two ports. */
  lemma PortedBaseName(knownProto: map<Proto, string>, id: FlowIdentity)
    requires id.proto != ICMP
    ensures BaseName(knownProto, id) ==
      (id.src + ":") + (Decimal(id.sp) + "-" + ((id.dst + ":") + (Decimal(id.dp) + "-" + NameTail(knownProto, id))))
  {
    var t := NameTail(knownProto, id);
    var h := id.src + ":" + Decimal(id.sp) + "-" + id.dst + ":" + Decimal(id.dp) + "-";
    assert BaseName(knownProto, id) == h + t;
  }

  function NameTail(knownProto: map<Proto, string>, id: FlowIdentity): string {
    id.startTime + "." + ProtoLabel(knownProto, id.proto) + ".pcap"
  }

  /** Two non-ICMP flows that agree on everything but the ports get the same
      file name only when their ports agree as well: the name determines the
      ports. */
  lemma PortsDetermineFileName(root: string, knownProto: map<Proto, string>, id1: FlowIdentity, id2: FlowIdentity)
    requires id1.proto != ICMP
    requires id2 == id1.(sp := id2.sp, dp := id2.dp)
    requires FileName(root, knownProto, id1) == FileName(root, knownProto, id2)
    ensures id1 == id2
  {
    assert Directory(root, id2) == Directory(root, id1);
    CancelPrefix(Directory(root, id1) + "/", BaseName(knownProto, id1), BaseName(knownProto, id2));
    var t := NameTail(knownProto, id1);
    assert NameTail(knownProto, id2) == t;
    var q := id1.dst + ":";
    var r1 := q + (Decimal(id1.dp) + "-" + t);
    var r2 := q + (Decimal(id2.dp) + "-" + t);
    PortedBaseName(knownProto, id1);
    PortedBaseName(knownProto, id2);
    CancelPrefix(id1.src + ":", Decimal(id1.sp) + "-" + r1, Decimal(id2.sp) + "-" + r2);
    PortBeforeDash(id1.sp, r1, id2.sp, r2);
    CancelPrefix(q, Decimal(id1.dp) + "-" + t, Decimal(id2.dp) + "-" + t);
    PortBeforeDash(id1.dp, t, id2.dp, t);
  }
}

=== FILE: pcap_files.dfy ===
/**
 * The queue of open capture files, as values: what an entry holds, how the
 * queue is searched, reordered, written, aged out and closed. The class in
 * alert_pcap_log.dfy is proved against these functions.
 *
 * A capture writer is abstract: an entry's `records` is the sequence of
 * packet records appended to its file so far, and `state` says whether its
 * writer is still open. The on-disk byte format is not modelled.
 */
module PcapFiles {
  import opened Wrappers

  /** One packet record as handed to the capture writer: the pcap record
      header (timestamp, captured length, original length) and the bytes. */
  datatype Record = Record(tsSec: int, tsUsec: int, caplen: nat, len: nat, data: seq<bv8>)

  datatype WriterState = Open | Closed

  /** AlertPcapFile: one output file of the cache. `updated` is the second
      of its last write. */
  datatype PcapFile = PcapFile(filename: string, records: seq<Record>, state: WriterState, updated: int)

  function Last<T>(s: seq<T>): T
    requires |s| > 0
  {
    s[|s| - 1]
  }

  /** No two files of the queue share a name. */
  predicate UniqueNames(s: seq<PcapFile>) {
    forall i, j :: 0 <= i < j < |s| ==> s[i].filename != s[j].filename
  }

  predicate AllOpen(s: seq<PcapFile>) {
    forall i :: 0 <= i < |s| ==> s[i].state == Open
  }

  /** Front to back, last-write times never decrease (oldest first). */
  predicate Ordered(s: seq<PcapFile>) {
    forall i, j :: 0 <= i < j < |s| ==> s[i].updated <= s[j].updated
  }

  /** No file of the queue was written after `now`. */
  predicate NotAfter(s: seq<PcapFile>, now: int) {
    forall i :: 0 <= i < |s| ==> s[i].updated <= now
  }

  /** The eviction test, the negation of the test that ends the scan: idle
      for at least `timeout` seconds. */
  predicate Expired(f: PcapFile, now: int, timeout: int) {
    now - f.updated >= timeout
  }


  // ---------------------------------------------------------------------
  // Lookup and move-to-tail

  /** Position of the first file with the given name, scanning from the front. */
  function FindIndex(s: seq<PcapFile>, name: string): (r: Option<nat>)
    ensures r.Some? ==> r.value < |s| && s[r.value].filename == name
    ensures r.Some? ==> forall j :: 0 <= j < r.value ==> s[j].filename != name
    ensures r.None? ==> forall j :: 0 <= j < |s| ==> s[j].filename != name
  {
    if s == [] then None
    else if s[0].filename == name then Some(0)
    else match FindIndex(s[1..], name)
      case None => None
      case Some(i) => Some(i + 1)
  }

  /** TAILQ_REMOVE followed by TAILQ_INSERT_TAIL of the i-th file: it only
      reorders the queue, and the moved file ends up at the tail. */
  function MoveToTail(s: seq<PcapFile>, i: nat): (r: seq<PcapFile>)
    requires i < |s|
    ensures |r| == |s| && Last(r) == s[i]
    ensures multiset(r) == multiset(s)
    ensures r[..|s| - 1] == s[..i] + s[i + 1..]
  {
    assert s == s[..i] + [s[i]] + s[i + 1..];
    s[..i] + s[i + 1..] + [s[i]]
  }

  /** Moving a file to the tail keeps names unique. */
  lemma MoveToTailUnique(s: seq<PcapFile>, i: nat)
    requires i < |s| && UniqueNames(s)
    ensures UniqueNames(MoveToTail(s, i))
  {
    var r := MoveToTail(s, i);
    forall a, b | 0 <= a < b < |r|
      ensures r[a].filename != r[b].filename
    {
      var sa := if a < i then a else a + 1;
      assert r[a] == s[sa];
      if b < |r| - 1 {
        assert r[b] == s[if b < i then b else b + 1];
      } else {
        assert r[b] == s[i];
      }
    }
  }

  /** The file the cache would create for a name: empty and open. Its
      `updated` is overwritten by the write that always follows creation. */
  function NewEntry(name: string): PcapFile {
    PcapFile(name, [], Open, 0)
  }

  /** The queue after looking up `name`: a hit moves the file to the tail, a
      miss appends a newly created file. Either way the looked-up file is at
      the tail; a hit only reorders the queue and a miss adds exactly one
      empty file after the old ones. */
  function Resolved(s: seq<PcapFile>, name: string): (r: seq<PcapFile>)
    ensures |r| > 0 && Last(r).filename == name
    ensures FindIndex(s, name).Some? ==> multiset(r) == multiset(s) && Last(r) == s[FindIndex(s, name).value]
    ensures FindIndex(s, name).Some? ==>
      r[..|r| - 1] == s[..FindIndex(s, name).value] + s[FindIndex(s, name).value + 1..]
    ensures FindIndex(s, name).None? ==> |r| == |s| + 1 && r[..|s|] == s && Last(r).records == []
  {
    match FindIndex(s, name)
    case Some(i) => MoveToTail(s, i)
    case None => s + [NewEntry(name)]
  }

  /** A lookup keeps the names of the queue unique. */
  lemma ResolvedUnique(s: seq<PcapFile>, name: string)
    requires UniqueNames(s)
    ensures UniqueNames(Resolved(s, name))
  {
    match FindIndex(s, name)
    case Some(i) => MoveToTailUnique(s, i);
    case None =>
  }

  /** A lookup keeps every file of the queue open. */
  lemma ResolvedOpen(s: seq<PcapFile>, name: string)
    requires AllOpen(s)
    ensures AllOpen(Resolved(s, name))
  {
    match FindIndex(s, name)
    case Some(i) =>
      var r := MoveToTail(s, i);
      forall a | 0 <= a < |r| ensures r[a].state == Open {
        if a < |r| - 1 {
          assert r[a] == s[if a < i then a else a + 1];
        }
      }
    case None =>
  }

  /** The fast path is sound: when the tail already has the name and names
      are unique, the lookup leaves the queue as it is. */
  lemma FastPathAgrees(s: seq<PcapFile>, name: string)
    requires UniqueNames(s) && |s| > 0 && Last(s).filename == name
    ensures Resolved(s, name) == s
  {
    var i := FindIndex(s, name).value;
    assert i == |s| - 1;
    assert s[..i] + s[i + 1..] == s[..|s| - 1];
  }

  // ---------------------------------------------------------------------
  // Writing to the tail file

  /** pcap_dump of each record, in order, into the file at the tail. */
  function Appended(s: seq<PcapFile>, rs: seq<Record>): (r: seq<PcapFile>)
    requires |s| > 0
    ensures |r| == |s| && r[..|s| - 1] == s[..|s| - 1]
    ensures Last(r) == Last(s).(records := Last(s).records + rs)
  {
    s[..|s| - 1] + [Last(s).(records := Last(s).records + rs)]
  }

  /** The tail file's last-write time becomes `now`. */
  function Touched(s: seq<PcapFile>, now: int): (r: seq<PcapFile>)
    requires |s| > 0
    ensures |r| == |s| && r[..|s| - 1] == s[..|s| - 1] && Last(r).updated == now
    ensures Last(r).filename == Last(s).filename && Last(r).records == Last(s).records
    ensures Last(r).state == Last(s).state
  {
    s[..|s| - 1] + [Last(s).(updated := now)]
  }

  lemma AppendedTwice(s: seq<PcapFile>, a: seq<Record>, b: seq<Record>)
    requires |s| > 0
    ensures Appended(Appended(s, a), b) == Appended(s, a + b)
  {
    assert Last(s).records + a + b == Last(s).records + (a + b);
  }

  lemma AppendedNothing(s: seq<PcapFile>)
    requires |s| > 0
    ensures Appended(s, []) == s
  {
    assert Last(s).records + [] == Last(s).records;
  }

  /** Same names and writer states, position by position. */
  predicate SameFiles(s: seq<PcapFile>, w: seq<PcapFile>) {
    |w| == |s| &&
    forall i :: 0 <= i < |s| ==> w[i].filename == s[i].filename && w[i].state == s[i].state
  }

  lemma SameFilesKeep(s: seq<PcapFile>, w: seq<PcapFile>)
    requires SameFiles(s, w)
    ensures UniqueNames(s) ==> UniqueNames(w)
    ensures AllOpen(s) ==> AllOpen(w)
    ensures |s| > 0 ==> Last(w).filename == Last(s).filename
  {
  }

  /** Writing to the tail changes no name and no writer state. */
  lemma AppendedSameFiles(s: seq<PcapFile>, rs: seq<Record>)
    requires |s| > 0
    ensures SameFiles(s, Appended(s, rs))
  {
    var w := Appended(s, rs);
    forall i | 0 <= i < |s| - 1
      ensures w[i] == s[i]
    {
      assert w[i] == w[..|s| - 1][i];
    }
  }

  lemma TouchedSameFiles(s: seq<PcapFile>, now: int)
    requires |s| > 0
    ensures SameFiles(s, Touched(s, now))
  {
    var w := Touched(s, now);
    forall i | 0 <= i < |s| - 1
      ensures w[i] == s[i]
    {
      assert w[i] == w[..|s| - 1][i];
    }
  }

  // ---------------------------------------------------------------------
  // Eviction and closing

  /** How many files at the front of the queue are idle for at least
      `timeout`: eviction stops at the first file that is not. */
  function ExpiredPrefix(s: seq<PcapFile>, now: int, timeout: int): (k: nat)
    ensures k <= |s|
    ensures forall i :: 0 <= i < k ==> Expired(s[i], now, timeout)
    ensures k < |s| ==> !Expired(s[k], now, timeout)
  {
    if s == [] || !Expired(s[0], now, timeout) then 0
    else 1 + ExpiredPrefix(s[1..], now, timeout)
  }

  /** AlertPcapFileClose applied to each file, in order. */
  function CloseAll(s: seq<PcapFile>): (r: seq<PcapFile>)
    ensures |r| == |s|
    ensures forall i :: 0 <= i < |s| ==> r[i] == s[i].(state := Closed)
  {
    if s == [] then [] else [s[0].(state := Closed)] + CloseAll(s[1..])
  }

  /** The queue that eviction leaves: a suffix of the queue; every file
      dropped in front of it was expired, and its first file is not. */
  function Evicted(s: seq<PcapFile>, now: int, timeout: int): (r: seq<PcapFile>)
    ensures |r| <= |s| && r == s[|s| - |r|..]
    ensures forall i :: 0 <= i < |s| - |r| ==> Expired(s[i], now, timeout)
    ensures |r| > 0 ==> !Expired(r[0], now, timeout)
  {
    s[ExpiredPrefix(s, now, timeout)..]
  }

  /** The files that eviction closes, in closing order: exactly the files in
      front of what eviction leaves, each with its writer closed. */
  function ClosedByEviction(s: seq<PcapFile>, now: int, timeout: int): (r: seq<PcapFile>)
    ensures |r| + |Evicted(s, now, timeout)| == |s|
    ensures forall i :: 0 <= i < |r| ==> r[i] == s[i].(state := Closed)
  {
    CloseAll(s[..ExpiredPrefix(s, now, timeout)])
  }

  lemma CloseAllSnoc(s: seq<PcapFile>, f: PcapFile)
    ensures CloseAll(s + [f]) == CloseAll(s) + [f.(state := Closed)]
  {
  }

  /** On an ordered queue, every file that eviction keeps is fresh: it was
      written less than `timeout` seconds before `now`. */
  lemma SurvivorsAreFresh(s: seq<PcapFile>, now: int, timeout: int)
    requires Ordered(s)
    ensures forall j :: ExpiredPrefix(s, now, timeout) <= j < |s| ==> !Expired(s[j], now, timeout)
  {
    var k := ExpiredPrefix(s, now, timeout);
    forall j | k <= j < |s|
      ensures !Expired(s[j], now, timeout)
    {
      assert s[k].updated <= s[j].updated;
    }
  }

  /** With a timeout of at least one second, the file written at `now` is
      never evicted by the same call. */
  lemma JustWrittenSurvives(s: seq<PcapFile>, now: int, timeout: int)
    requires timeout >= 1 && |s| > 0 && Last(s).updated == now
    ensures ExpiredPrefix(s, now, timeout) < |s|
  {
  }

  /** With a timeout of zero, eviction empties a queue written no later than
      `now`: every file, the one just written included, is closed. */
  lemma ZeroTimeoutEvictsAll(s: seq<PcapFile>, now: int)
    requires NotAfter(s, now)
    ensures ExpiredPrefix(s, now, 0) == |s|
  {
  }

  // ---------------------------------------------------------------------
  // One event as a whole

  /** The queue after one event's lookup, backlog drain, packet write and
      timestamp, before eviction. */
  function AfterWrite(s: seq<PcapFile>, name: string, rs: seq<Record>, now: int): (r: seq<PcapFile>)
    ensures |r| == |s| + (if FindIndex(s, name).None? then 1 else 0)
    ensures |r| > 0 && Last(r).filename == name && Last(r).updated == now
  {
    Touched(Appended(Resolved(s, name), rs), now)
  }

  /** Stamping the tail with `now` keeps the queue ordered when the rest of
      the queue is ordered and no later than `now`. */
  lemma TouchedOrdered(r: seq<PcapFile>, rs: seq<Record>, now: int)
    requires |r| > 0 && Ordered(r[..|r| - 1]) && NotAfter(r[..|r| - 1], now)
    ensures Ordered(Touched(Appended(r, rs), now)) && NotAfter(Touched(Appended(r, rs), now), now)
  {
    var w := Touched(Appended(r, rs), now);
    assert w[..|r| - 1] == r[..|r| - 1];
    forall a | 0 <= a < |r| - 1
      ensures w[a] == r[..|r| - 1][a]
    {
      assert w[a] == w[..|r| - 1][a];
    }
  }

  /** Taking one file out of an ordered queue leaves it ordered. */
  lemma RemovedOrdered(s: seq<PcapFile>, i: nat, now: int)
    requires i < |s| && Ordered(s) && NotAfter(s, now)
    ensures Ordered(s[..i] + s[i + 1..]) && NotAfter(s[..i] + s[i + 1..], now)
  {
    var t := s[..i] + s[i + 1..];
    forall a | 0 <= a < |t|
      ensures t[a] == s[if a < i then a else a + 1]
    {
    }
  }

  /** An event keeps the queue ordered by last write, provided the clock
      does not run backwards: `now` is no earlier than any earlier write. */
  lemma AfterWriteOrdered(s: seq<PcapFile>, name: string, rs: seq<Record>, now: int)
    requires Ordered(s) && NotAfter(s, now)
    ensures Ordered(AfterWrite(s, name, rs, now)) && NotAfter(AfterWrite(s, name, rs, now), now)
  {
    var r := Resolved(s, name);
    match FindIndex(s, name)
    case Some(i) =>
      assert r[..|r| - 1] == s[..i] + s[i + 1..];
      RemovedOrdered(s, i, now);
      TouchedOrdered(r, rs, now);
    case None =>
      assert r[..|r| - 1] == s;
      TouchedOrdered(r, rs, now);
  }

  /** Eviction removes a prefix, so it keeps the queue ordered, unique and open. */
  lemma EvictionKeeps(s: seq<PcapFile>, k: nat)
    requires k <= |s|
    ensures Ordered(s) ==> Ordered(s[k..])
    ensures UniqueNames(s) ==> UniqueNames(s[k..])
    ensures AllOpen(s) ==> AllOpen(s[k..])
  {
  }

  /** Recency order survives a whole event: lookup, write, time stamp and
      eviction leave the queue ordered by last write, provided the clock
      does not run backwards. */
  lemma EventKeepsOrder(s: seq<PcapFile>, name: string, rs: seq<Record>, now: int, timeout: int)
    requires Ordered(s) && NotAfter(s, now)
    ensures Ordered(Evicted(AfterWrite(s, name, rs, now), now, timeout))
    ensures NotAfter(Evicted(AfterWrite(s, name, rs, now), now, timeout), now)
  {
    AfterWriteOrdered(s, name, rs, now);
    EvictedOrdered(AfterWrite(s, name, rs, now), now, timeout);
  }

  /** Eviction of an ordered queue written no later than `now` leaves an
      ordered queue written no later than `now`. */
  lemma EvictedOrdered(w: seq<PcapFile>, now: int, timeout: int)
    requires Ordered(w) && NotAfter(w, now)
    ensures Ordered(Evicted(w, now, timeout)) && NotAfter(Evicted(w, now, timeout), now)
  {
    var k := ExpiredPrefix(w, now, timeout);
    EvictionKeeps(w, k);
    forall i | 0 <= i < |w[k..]|
      ensures w[k..][i].updated <= now
    {
      assert w[k..][i] == w[i + k];
    }
  }

  /** Reuse: with a timeout of at least one second, the file an event wrote
      is still in the queue afterwards, at the tail, so an immediately
      following event for the same flow takes the fast path and creates
      nothing. */
  lemma NextEventReuses(s: seq<PcapFile>, name: string, rs: seq<Record>, now: int, timeout: int)
    requires UniqueNames(s) && timeout >= 1
    ensures var w := AfterWrite(s, name, rs, now);
      var kept := w[ExpiredPrefix(w, now, timeout)..];
      |kept| > 0 && Last(kept).filename == name && Resolved(kept, name) == kept
  {
    var w := AfterWrite(s, name, rs, now);
    ResolvedUnique(s, name);
    var r := Resolved(s, name);
    AppendedSameFiles(r, rs);
    TouchedSameFiles(Appended(r, rs), now);
    SameFilesKeep(r, Appended(r, rs));
    SameFilesKeep(Appended(r, rs), w);
    JustWrittenSurvives(w, now, timeout);
    var k := ExpiredPrefix(w, now, timeout);
    var kept := w[k..];
    assert Last(kept) == Last(w);
    EvictionKeeps(w, k);
    FastPathAgrees(kept, name);
  }

  /** Backlog ordering: a newly created file holds exactly the records of
      one event, in the order they were written. */
  lemma NewFileHoldsEventRecords(s: seq<PcapFile>, name: string, rs: seq<Record>, now: int)
    requires FindIndex(s, name).None?
    ensures Last(AfterWrite(s, name, rs, now)).records == rs
  {
  }

  /** Reuse: a file found by the lookup keeps what it held and gets the
      event's records after it, in the order they were written. */
  lemma ReusedFileHoldsEventRecords(s: seq<PcapFile>, name: string, rs: seq<Record>, now: int)
    requires FindIndex(s, name).Some?
    ensures Last(AfterWrite(s, name, rs, now)).records == s[FindIndex(s, name).value].records + rs
  {
  }

  // ---------------------------------------------------------------------
  // Creating a file (AlertPcapFileNew)

  /** What MakePath reported. */
  datatype MakePathResult = Made | AlreadyExists | MakeFailed

  /** The answers of the allocator, the file system and libpcap while a file
      is created; they are inputs of the model. */
  datatype CreateEnv = CreateEnv(
    allocOk: bool,           // SCMalloc / SCCalloc of the entry and its name
    directoryExists: bool,   // stat on the target directory
    makePath: MakePathResult,
    openDeadOk: bool,        // pcap_open_dead
    dumpOpenOk: bool         // pcap_dump_open
  )

  datatype CreateError =
    | AllocationError
    | DirectoryCreationError
    | PcapOpenError
    | FileOpenError

  /** AlertPcapFileNew: a new open, empty file, or the first step that failed. */
  function NewFile(name: string, env: CreateEnv): (r: Result<PcapFile, CreateError>)
    ensures r.Ok? ==> r.value == NewEntry(name)
    ensures r.Ok? <==> env.allocOk && (env.directoryExists || env.makePath != MakeFailed) && env.openDeadOk && env.dumpOpenOk
  {
    if !env.allocOk then Err(AllocationError)
    else if !env.directoryExists && env.makePath == MakeFailed then Err(DirectoryCreationError)
    else if !env.openDeadOk then Err(PcapOpenError)
    else if !env.dumpOpenOk then Err(FileOpenError)
    else Ok(NewEntry(name))
  }

  /** The scan of the queue (TAILQ_FOREACH with strcmp), front to back. */
  method FindFile(files: seq<PcapFile>, name: string) returns (idx: Option<nat>)
    ensures idx == FindIndex(files, name)
    ensures idx.Some? ==> idx.value < |files| && files[idx.value].filename == name
  {
    var i := 0;
    while i < |files|
      invariant 0 <= i <= |files|
      invariant forall j :: 0 <= j < i ==> files[j].filename != name
    {
      if files[i].filename == name {
        return Some(i);
      }
      i := i + 1;
    }
    return None;
  }
}

=== FILE: wrappers.dfy ===
/** Option and Result values used across the model in place of NULL returns and error codes. */
module Wrappers {

  datatype Option<+T> = None | Some(value: T)

  datatype Result<+R, +E> = Ok(value: R) | Err(error: E)
}
